=== FILE: README.md ===
# Yii2 fixture controller, modelled in Dafny

This project models the decision logic of Yii2's console `FixtureController`.
That is the `yii fixture/load` and `yii fixture/unload` commands. Given a list
of command-line tokens, the controller:

1. splits the tokens into names to apply and names to exclude. Any token that
   contains `-` is an exclusion, with every `-` removed.
2. discovers fixtures. A leading `*` finds every `*Fixture.php` file under the
   fixture path. Otherwise it looks up `<Name>Fixture.php` for each applied
   name, and reports the names it did not find.
3. removes the excluded names from what was found.
4. asks the operator to confirm.
5. resolves the global fixtures, followed by the selected names, to fixture
   class names. Names without a namespace separator get the configured
   namespace. Classes that do not exist are dropped.
6. resets the resolved fixtures (unload, then load) or only unloads them.

The model is functional:

- The directory scan is a given sequence of file basenames.
- `class_exists` is a given set of class names.
- The operator's answer is a boolean.
- Each action is a pure function. It returns a `Report`: the outcome, the
  names reported as not found, whether the operator was prompted, the
  unload/load calls made on the resolved class list, and how the action ends
  (a return value or the text of the thrown exception).

Modules, in dependency order:

- `Seqs` — filtering in order, mapping, `array_diff`, suffix tests, subsequences.
- `NameFilter` — `filterFixtures`, `needToApplyAll`.
- `Discovery` — `findFixtures`, over a list of basenames.
- `ConfigResolver` — `getFixturesConfig`, over a set of class names.
- `Messages` — the two exception texts.
- `FixtureController` — `actionLoad` and `actionUnload`.
- `ActionProperties` — properties that relate runs, or relate a run to its parts.
- `Scenarios` — the documented command lines, worked through for arbitrary
  fixture names.

### Behaviour worth knowing (the model follows the code)

- **Exclusion marker.** The doc comment of `filterFixtures` (lines 433-435)
  says a fixture is excluded when it is *prefixed* with `-`. The code at line
  460 excludes a token with `-` anywhere in it, and line 461 strips every `-`
  (`NameFilter.MarkerInsideExcludes`).
- **Overlap of apply and except.** Each token is placed on its own, and the
  stripped name is never compared with the other list. So `User -User` puts
  `User` in both lists (`NameFilter.ApplyAndExceptMayOverlap`). The net effect
  is "nothing to load" (`Scenarios.RequestedAndExcluded`).
- **Wildcard detection.** Only the first token, `$fixturesInput[0]`, is tested
  for `*` (lines 106 and 177). After a leading `*`, the other tokens count only
  as exclusions (`ActionProperties.WildcardIgnoresApplied`).

## Model

| member | source | states |
|---|---|---|
| NameFilter.Filter | vendor/yiisoft/yii2/console/controllers/FixtureController.php:452-468 | every token lands in exactly one list, so the two lengths sum to the input length; no output name contains `-`; an unmarked token appears unchanged in apply, a marked one appears stripped in except; every applied name is an input token |
| NameFilter.FilterIsPartition | vendor/yiisoft/yii2/console/controllers/FixtureController.php:452-468 | apply is exactly the tokens without `-`, in input order; except is exactly the tokens with `-`, in input order, each with every `-` removed |
| NameFilter.FilterKeepsOrder | vendor/yiisoft/yii2/console/controllers/FixtureController.php:459-465 | apply keeps the relative order of the input tokens (for except, order follows from `FilterIsPartition`) |
| NameFilter.StripMarker | vendor/yiisoft/yii2/console/controllers/FixtureController.php:461 | `str_replace('-', '', t)` leaves no `-`, keeps the other characters in order, shortens every marked token and leaves unmarked tokens unchanged |
| NameFilter.StripMarkerCounts | vendor/yiisoft/yii2/console/controllers/FixtureController.php:461 | stripping keeps every character other than `-` with all its occurrences and drops every `-`; the name is shorter than the token by exactly the number of `-` in it |
| NameFilter.NeedToApplyAll | vendor/yiisoft/yii2/console/controllers/FixtureController.php:373-376 | the wildcard token carries no `-`, so the filter files it under apply like a name (that only the first token decides, and that apply is then ignored, is stated by `FixtureController.Select` and `ActionProperties.WildcardIgnoresApplied`) |
| NameFilter.MarkerInsideExcludes | vendor/yiisoft/yii2/console/controllers/FixtureController.php:460-461 | a `-` in the middle of a token (`User-Profile`) also excludes it, as `UserProfile` |
| NameFilter.ApplyAndExceptMayOverlap | vendor/yiisoft/yii2/console/controllers/FixtureController.php:459-465 | the split is decided per token: `User -User` puts `User` in both apply and except |
| Discovery.Basename | vendor/yiisoft/yii2/console/controllers/FixtureController.php:404 | `basename($f, 'Fixture.php')` is either the file name itself, or the name that `Fixture.php` was appended to |
| Discovery.FileNameOf | vendor/yiisoft/yii2/console/controllers/FixtureController.php:396 | `$fileName . 'Fixture.php'` always names a fixture file, whose leading part is the requested name itself |
| Discovery.BasenameOfFileName | vendor/yiisoft/yii2/console/controllers/FixtureController.php:396-404 | for a non-empty name, stripping the suffix inverts `$fileName . 'Fixture.php'` |
| Discovery.FileNameOfInjective | vendor/yiisoft/yii2/console/controllers/FixtureController.php:396 | different requested names are looked up under different file names |
| Discovery.FindFixtures | vendor/yiisoft/yii2/console/controllers/FixtureController.php:384-408 | at most one discovered name per scanned file |
| Discovery.SelectedFiles | vendor/yiisoft/yii2/console/controllers/FixtureController.php:388-398 | the search patterns select only files ending in `Fixture.php`, in both modes; with names requested, a selected file longer than the suffix has a requested name as its basename |
| Discovery.FoundIff | vendor/yiisoft/yii2/console/controllers/FixtureController.php:400-405 | a name is discovered iff some scanned file passes the filter and has that basename |
| Discovery.FoundComeFromFixtureFiles | vendor/yiisoft/yii2/console/controllers/FixtureController.php:388-405 | in both modes, every discovered name is the basename of a scanned file that ends in `Fixture.php` |
| Discovery.SpecificFindsOnlyRequested | vendor/yiisoft/yii2/console/controllers/FixtureController.php:391-405 | with names requested, every discovered name was requested, except the file `Fixture.php` itself, which a requested empty name finds under its full name |
| Discovery.SpecificFoundIff | vendor/yiisoft/yii2/console/controllers/FixtureController.php:391-405 | with names requested, a non-empty name is discovered iff (it was requested and `<Name>Fixture.php` was scanned) or (it is `Fixture.php`, reached through a requested empty name) |
| Discovery.FindAllFindsEveryFixtureFile | vendor/yiisoft/yii2/console/controllers/FixtureController.php:388-389 | with no names requested, every scanned `<Name>Fixture.php` with a non-empty name yields `Name` |
| Discovery.DuplicatesAreKept | vendor/yiisoft/yii2/console/controllers/FixtureController.php:400-405 | two scanned files with one basename (in two directories) yield the name twice |
| Seqs.MinusSpec | vendor/yiisoft/yii2/console/controllers/FixtureController.php:121 | `array_diff(found, except)` keeps the order of `found` and holds exactly the found names that are not excluded; a name that is kept keeps all its occurrences, an excluded one keeps none |
| Seqs.Minus | vendor/yiisoft/yii2/console/controllers/FixtureController.php:111 | `array_diff(a, b)` is no longer than `a` and holds exactly the entries of `a` that are not in `b` |
| ConfigResolver.ClassNameOf | vendor/yiisoft/yii2/console/controllers/FixtureController.php:421-422 | every resolved class name contains a namespace separator, ends in `Fixture` and is longer than the name it came from |
| ConfigResolver.ClassNameOfInjective | vendor/yiisoft/yii2/console/controllers/FixtureController.php:421-422 | two bare names, or two namespaced names, never resolve to the same class |
| ConfigResolver.BareAndQualifiedCoincide | vendor/yiisoft/yii2/console/controllers/FixtureController.php:421-422 | a bare name and the same name written with the namespace resolve to the same class |
| ConfigResolver.FixturesConfig | vendor/yiisoft/yii2/console/controllers/FixtureController.php:415-430 | the result is no longer than the input; it holds only existing classes, each resolved from some input name; every input name whose class exists is represented |
| ConfigResolver.ConfigIsSubsequence | vendor/yiisoft/yii2/console/controllers/FixtureController.php:419-427 | the result is an order-preserving subsequence of the resolved class names of the input |
| ConfigResolver.FixturesConfigIsWhere | vendor/yiisoft/yii2/console/controllers/FixtureController.php:419-427 | the result is exactly the resolved class names of the input, in input order, with the non-existing classes deleted; a class named twice appears twice |
| ConfigResolver.ConfigOfConcat | vendor/yiisoft/yii2/console/controllers/FixtureController.php:139 | resolving `globalFixtures ++ names` gives the globals' classes followed by the names' classes |
| Messages.LoadNoConfigMessage | vendor/yiisoft/yii2/console/controllers/FixtureController.php:142 | the load action's "no fixtures" text puts the namespace between quotes |
| Messages.Implode | vendor/yiisoft/yii2/console/controllers/FixtureController.php:125 | `implode(', ', tokens)`: empty for no pieces; otherwise the summed piece lengths plus one glue between each two neighbours, starting with the first piece, followed by the glue when there is a second |
| Messages.ImplodeAppend | vendor/yiisoft/yii2/console/controllers/FixtureController.php:125 | joining two non-empty lists equals joining each and putting one glue between the results, so every piece appears in order with exactly one glue between neighbours |
| Messages.ImplodeOfThree | vendor/yiisoft/yii2/console/controllers/FixtureController.php:125 | three tokens join to `x, y, z` exactly: each token once, in order, with the glue twice |
| Messages.NoFilesFoundMessage | vendor/yiisoft/yii2/console/controllers/FixtureController.php:124-127 | the "no files" text puts both the comma-joined tokens and the fixture path between quotes |
| Messages.UnloadNoConfigMessageAsWritten | vendor/yiisoft/yii2/console/controllers/FixtureController.php:213 | the unload text as written starts with the same prefix as the load text; inserting one quote right after that prefix gives the corrected text |
| Messages.UnloadMessageAsWrittenNotQuoted | vendor/yiisoft/yii2/console/controllers/FixtureController.php:213 | the unload action's text, as written, never puts a quote-free namespace between quotes |
| Messages.UnloadNoConfigMessage | vendor/yiisoft/yii2/console/controllers/FixtureController.php:213 | the corrected unload text puts the namespace between quotes |
| FixtureController.Select | vendor/yiisoft/yii2/console/controllers/FixtureController.php:103-121 | except comes from the filter. A leading `*` runs find-all and reports nothing missing; otherwise the applied names are searched. Every applied name is either found or reported, and every reported name is an applied name that was not found. The names to process are exactly the found names that are not excluded, in order, each as often as it was found |
| FixtureController.Decide | vendor/yiisoft/yii2/console/controllers/FixtureController.php:123-151 | on a given selection: nothing found throws the given text; nothing left is a normal exit; a declined prompt is a normal exit; no resolved class throws the action's own text; otherwise the resolved class list is non-empty, holds only existing classes, gets the action's calls, and load returns the normal exit code while unload returns nothing. The missing names are passed through |
| FixtureController.ResolvedConfig | vendor/yiisoft/yii2/console/controllers/FixtureController.php:139 | resolving `array_merge(globalFixtures, names)` gives the globals' classes followed by the names' classes, and only existing classes |
| FixtureController.Calls | vendor/yiisoft/yii2/console/controllers/FixtureController.php:145-148 | every call gets the whole class list; the first call is always unload, load is called iff the action is load, and the trace has two calls for load and one for unload |
| FixtureController.Run | vendor/yiisoft/yii2/console/controllers/FixtureController.php:121-151 | calls are made only after a confirmed prompt. Calls happen iff the outcome is applied; then the class list is non-empty, holds only existing classes, and gets exactly the action's calls. The action raises iff nothing was found or nothing resolved; when nothing was found, the text quotes the joined tokens and the fixture path; when nothing resolved, it is the action's own text. On success load returns the normal exit code and unload returns nothing; every other end returns the normal exit code |
| FixtureController.ActionLoad | vendor/yiisoft/yii2/console/controllers/FixtureController.php:91-152 | help is shown iff no token is given; help exits normally, with no prompt, no call and nothing reported. Nothing is mutated without confirmation. On success the trace is unload of the class list, then load of the same list. Load always returns or throws; it never falls off the end. When no class resolves, the thrown text quotes the namespace |
| FixtureController.ActionUnload | vendor/yiisoft/yii2/console/controllers/FixtureController.php:171-218 | needs a first token. Nothing is mutated without confirmation. On success only unload is called, and the action returns no value; otherwise it throws or returns the normal exit code. When no class resolves it throws the text as written at line 213, which leaves a quote-free namespace unquoted |
| ActionProperties.LoadDecisionOrder | vendor/yiisoft/yii2/console/controllers/FixtureController.php:123-148 | the checks run in a fixed order: nothing found throws; nothing left after exclusion is a notice; a declined prompt exits; no resolved class throws; otherwise apply. The prompt is reached iff the first two checks pass |
| ActionProperties.AppliedGlobalsFirst | vendor/yiisoft/yii2/console/controllers/FixtureController.php:139-148 | the class list of an applied action is the globals' classes followed by the selected names' classes |
| ActionProperties.AppliedClassesAreAccounted | vendor/yiisoft/yii2/console/controllers/FixtureController.php:121-139 | every class acted on exists, and is the class of a global fixture or of a found name that was not excluded |
| ActionProperties.UnloadMirrorsLoad | vendor/yiisoft/yii2/console/controllers/FixtureController.php:171-218 | on the same non-empty input, unload reaches the same outcome, reports the same missing names and prompts alike. Its trace is the first call of load's trace. It returns nothing where load returns the normal exit code |
| ActionProperties.WildcardIgnoresApplied | vendor/yiisoft/yii2/console/controllers/FixtureController.php:106-119 | two inputs that both start with `*` and exclude the same names decide identically: the other tokens are ignored |
| ActionProperties.ExclusionsAloneActLikeWildcard | vendor/yiisoft/yii2/console/controllers/FixtureController.php:384-391 | input made only of exclusions requests nothing, which means find-all; it decides exactly as the same input with `*` in front |
| ActionProperties.SameSelectionSameDecisions | vendor/yiisoft/yii2/console/controllers/FixtureController.php:103-151 | two token lists with the same selection reach the same outcome, report the same missing names, prompt alike and make the same calls: only the "no files" text depends on the raw tokens |
| ActionProperties.MissingNamesNotFatal | vendor/yiisoft/yii2/console/controllers/FixtureController.php:110-128 | the reported names are the applied names that were not found; the action throws for lack of files iff nothing at all was found |
| Scenarios.WildcardExceptOne | vendor/yiisoft/yii2/console/controllers/FixtureController.php:85-86 | `load "*" -A` with fixtures A, B, C and no globals resets exactly B and C, in scan order |
| Scenarios.MissingNameReported | vendor/yiisoft/yii2/console/controllers/FixtureController.php:108-115 | `load User Missing` with only User present reports Missing and still resets User |
| Scenarios.GlobalLoadedFirst | vendor/yiisoft/yii2/console/controllers/FixtureController.php:139-148 | with global G and request A, `unloadFixtures` and then `loadFixtures` both receive the class list [G, A], globals first |
| Scenarios.RequestedAndExcluded | vendor/yiisoft/yii2/console/controllers/FixtureController.php:130-133 | `load A -A` ends with the "nothing to load" notice. There is no prompt and no call |
| Scenarios.DefaultGlobalResolves | vendor/yiisoft/yii2/console/controllers/FixtureController.php:58-60 | the default global fixture `yii\test\InitDb` is already namespaced and resolves to `yii\test\InitDbFixture` |

## Left out

- Console output is not modelled: `notifyLoaded`, `notifyNothingToLoad`, `notifyNotFound`, `outputList`, the prompt texts, the help summary and ANSI colours. It prints only. The model keeps what each notice is about: the outcome and the names reported as not found.
- `confirm` is the boolean `confirmed`. Non-interactive mode, where `confirm` answers yes, is the caller passing `true`.
- `getFixturePath` / `Yii::getAlias` (alias resolution) is not modelled. The resolved fixture path is a given string, used only in the "no files" text.
- The recursive directory walk and glob matching of `FileHelper::findFiles` are not modelled. The scan is a given list of basenames. A requested name is matched literally as `<Name>Fixture.php`. In the source, a name with `*`, `?` or `[` in it is a glob pattern. For example, a `*` token that is not first selects every fixture file. The model does not cover that.
- `class_exists` is an exact lookup in a given set. PHP class lookup ignores case and can trigger autoloading; neither is modelled.
- `createFixtures`, `loadFixtures` and `unloadFixtures` come from `yii\test\FixtureTrait`, which is not part of this model. They appear only as recorded calls on the whole class list. Not modelled, because the trait's code is not part of this model: the order within one call, fixture dependencies, a failure part-way through a call, and whether loading twice leaves the same state as loading once.
- FixtureController.ActionUnload: requires a non-empty token list. The source reads `$fixturesInput[0]` without a guard (line 177). If the undefined-index notice does not abort the action, the index reads as `null`, `needToApplyAll(null)` is false, apply is empty, and `findFixtures([])` runs find-all. So `yii fixture/unload` with no tokens would offer to unload every fixture. The model leaves that path out because it depends on PHP's error handling.
- `needToApplyAll` uses PHP's loose `==`. Command-line tokens are always strings, and `'*'` is not numeric, so this is plain string equality, which is what the model uses.
- `options()`, `defaultAction` and the option parsing of `namespace` / `globalFixtures` are not modelled: this is console plumbing. The two options are the `Settings` value, with the source's defaults in `DefaultSettings`.
- The numeric value of `EXIT_CODE_NORMAL` is defined in `yii\console\Controller`, which is not part of this model. The model names it `ExitNormal`.
- models/UploadForm.php is not part of this model: it is a database query, a file save and record persistence, with no logic of its own.
- views/online-compile/index.php is not part of this model: it is view markup.

## Findings

| source | as written | input that shows it | evidently intended | confidence | as-written member | corrected member |
|---|---|---|---|---|---|---|
| vendor/yiisoft/yii2/console/controllers/FixtureController.php:213 | `'No fixtures were found in namespace: ' . $this->namespace . '".'` has no opening quote | namespace `tests\unit\fixtures`: the text ends `tests\unit\fixtures".`, with one quote character | the namespace between quotes, as in load's text at line 142 | high, not executed | Messages.UnloadNoConfigMessageAsWritten (shown by Messages.UnloadMessageAsWrittenNotQuoted) | Messages.UnloadNoConfigMessage (the intended text; the actions keep throwing the text as written, see FixtureController.ActionUnload) |

=== FILE: action_properties.dfy ===
/**
 Properties relating several runs of the fixture actions, or a run to the
 pieces it is built from.
 */
module ActionProperties {
  import opened Seqs
  import opened NameFilter
  import opened Discovery
  import opened ConfigResolver
  import opened Messages
  import opened FixtureController

  /**
   The checks of `actionLoad` happen in a fixed order and each one decides the
   outcome only when all earlier ones passed; only the last one mutates.
   */
  lemma LoadDecisionOrder(settings: Settings, env: Environment, input: seq<string>, confirmed: bool)
    requires input != []
    ensures var r := ActionLoad(settings, env, input, confirmed);
            var s := Select(env.files, input);
            var config := ResolvedConfig(settings, env, s.toProcess);
            && (r.outcome == NoFilesFound <==> s.found == [])
            && (r.outcome == NothingToDo <==> s.found != [] && s.toProcess == [])
            && (r.outcome == Declined <==> s.found != [] && s.toProcess != [] && !confirmed)
            && (r.outcome == NoFixturesInNamespace <==>
                  s.found != [] && s.toProcess != [] && confirmed && config == [])
            && (r.outcome.Applied? <==> s.found != [] && s.toProcess != [] && confirmed && config != [])
            && (r.prompted <==> s.found != [] && s.toProcess != [])
            && r.notFound == s.notFound
  {
    var r := ActionLoad(settings, env, input, confirmed);
    assert r == Run(Load, settings, env, input, confirmed);
    var s := Select(env.files, input);
    if s.found != [] && s.toProcess != [] && confirmed {
      var config := ResolvedConfig(settings, env, s.toProcess);
      assert r.outcome == if config == [] then NoFixturesInNamespace else Applied(config);
    }
  }

  /**
   The classes a confirmed action works on are the globals' classes followed
   by the selected names' classes: globals are unloaded and loaded first.
   */
  lemma AppliedGlobalsFirst(action: Action, settings: Settings, env: Environment, input: seq<string>, confirmed: bool)
    requires input != []
    requires Run(action, settings, env, input, confirmed).outcome.Applied?
    ensures Run(action, settings, env, input, confirmed).outcome.config ==
            FixturesConfig(settings.namespace, env.classes, settings.globalFixtures) +
            FixturesConfig(settings.namespace, env.classes, Select(env.files, input).toProcess)
  {
    RunIsDecide(action, settings, env, input, confirmed);
    ConfigOfConcat(settings.namespace, env.classes, settings.globalFixtures, Select(env.files, input).toProcess);
  }

  /**
   Every class an action works on is the class of a global fixture or of a
   discovered name that was not excluded.
   */
  lemma AppliedClassesAreAccounted(action: Action, settings: Settings, env: Environment, input: seq<string>,
                                   confirmed: bool, c: string)
    requires input != []
    requires var r := Run(action, settings, env, input, confirmed); r.outcome.Applied? && c in r.outcome.config
    ensures c in env.classes
    ensures exists n :: ClassNameOf(settings.namespace, n) == c &&
              (n in settings.globalFixtures ||
               (n in Select(env.files, input).found && n !in Select(env.files, input).except))
  {
    RunIsDecide(action, settings, env, input, confirmed);
    var s := Select(env.files, input);
    var n :| n in settings.globalFixtures + s.toProcess && ClassNameOf(settings.namespace, n) == c;
    assert n in settings.globalFixtures || n in s.toProcess;
  }

  /**
   `actionUnload` makes the same decisions as `actionLoad` on the same
   non-empty input; it only unloads, and on success it returns nothing.
   */
  lemma UnloadMirrorsLoad(settings: Settings, env: Environment, input: seq<string>, confirmed: bool)
    requires input != []
    ensures var l := ActionLoad(settings, env, input, confirmed);
            var u := ActionUnload(settings, env, input, confirmed);
            && u.outcome == l.outcome
            && u.notFound == l.notFound
            && u.prompted == l.prompted
            && (l.outcome.Applied? ==> |l.calls| == 2 && u.calls == l.calls[..1] && l.exit == ExitNormal && u.exit == NoReturnValue)
            && (!l.outcome.Applied? ==> u.calls == l.calls == [])
            && (l.outcome != NoFixturesInNamespace && !l.outcome.Applied? ==> u.exit == l.exit)
  {
    assert ActionLoad(settings, env, input, confirmed) == Run(Load, settings, env, input, confirmed);
    RunIsDecide(Load, settings, env, input, confirmed);
    RunIsDecide(Unload, settings, env, input, confirmed);
    DecideLoadUnload(settings, env, Select(env.files, input), confirmed, NoFilesFoundMessage(input, env.fixturePath));
  }

  lemma DecideLoadUnload(settings: Settings, env: Environment, s: Selection, confirmed: bool, text: string)
    ensures var l := Decide(Load, settings, env, s, confirmed, text);
            var u := Decide(Unload, settings, env, s, confirmed, text);
            && u.outcome == l.outcome
            && u.notFound == l.notFound
            && u.prompted == l.prompted
            && (l.outcome.Applied? ==> |l.calls| == 2 && u.calls == l.calls[..1])
            && (!l.outcome.Applied? ==> u.calls == l.calls == [])
            && (l.outcome != NoFixturesInNamespace && !l.outcome.Applied? ==> u.exit == l.exit)
  {
    if s.found != [] && s.toProcess != [] && confirmed {
      var config := ResolvedConfig(settings, env, s.toProcess);
      assert Calls(Load, config)[..1] == Calls(Unload, config);
    }
  }

  /** `Run` is the checks of `Decide` on the tokens' selection. */
  lemma RunIsDecide(action: Action, settings: Settings, env: Environment, input: seq<string>, confirmed: bool)
    requires input != []
    ensures Run(action, settings, env, input, confirmed) ==
            Decide(action, settings, env, Select(env.files, input), confirmed, NoFilesFoundMessage(input, env.fixturePath))
  {
  }

  /**
   With a leading wildcard the applied names are ignored: two inputs that
   start with `*` and exclude the same names lead to the same decisions.
   */
  lemma WildcardIgnoresApplied(action: Action, settings: Settings, env: Environment,
                               a: seq<string>, b: seq<string>, confirmed: bool)
    requires a != [] && b != []
    requires NeedToApplyAll(a[0]) && NeedToApplyAll(b[0])
    requires Filter(a).except == Filter(b).except
    ensures var ra := Run(action, settings, env, a, confirmed);
            var rb := Run(action, settings, env, b, confirmed);
            ra.outcome == rb.outcome && ra.notFound == rb.notFound == [] &&
            ra.prompted == rb.prompted && ra.calls == rb.calls
  {
    assert Select(env.files, a) == Select(env.files, b);
    SameSelectionSameDecisions(action, settings, env, a, b, confirmed);
  }

  /**
   A token list made only of exclusions requests nothing, and an empty
   request is find-all: it decides exactly as the same list behind a wildcard.
   */
  lemma ExclusionsAloneActLikeWildcard(action: Action, settings: Settings, env: Environment,
                                       input: seq<string>, confirmed: bool)
    requires input != []
    requires forall t :: t in input ==> HasMarker(t)
    ensures Select(env.files, input).found == FindAll(env.files)
    ensures var r := Run(action, settings, env, input, confirmed);
            var w := Run(action, settings, env, [Wildcard] + input, confirmed);
            r.outcome == w.outcome && r.notFound == w.notFound == [] && r.prompted == w.prompted && r.calls == w.calls
  {
    SameSelectionBehindWildcard(env.files, input);
    SameSelectionSameDecisions(action, settings, env, input, [Wildcard] + input, confirmed);
  }

  /** Everything but the exception text depends on the tokens only through their selection. */
  lemma SameSelectionSameDecisions(action: Action, settings: Settings, env: Environment,
                                   a: seq<string>, b: seq<string>, confirmed: bool)
    requires a != [] && b != []
    requires Select(env.files, a) == Select(env.files, b)
    ensures var ra := Run(action, settings, env, a, confirmed);
            var rb := Run(action, settings, env, b, confirmed);
            ra.outcome == rb.outcome && ra.notFound == rb.notFound && ra.prompted == rb.prompted && ra.calls == rb.calls
  {
    var s := Select(env.files, a);
    DecideIgnoresText(action, settings, env, s, confirmed,
                      NoFilesFoundMessage(a, env.fixturePath), NoFilesFoundMessage(b, env.fixturePath));
  }

  /** The text thrown when nothing was found affects nothing but the exit. */
  lemma DecideIgnoresText(action: Action, settings: Settings, env: Environment, s: Selection, confirmed: bool,
                          text1: string, text2: string)
    ensures Decide(action, settings, env, s, confirmed, text1).(exit := ExitNormal) ==
            Decide(action, settings, env, s, confirmed, text2).(exit := ExitNormal)
  {
  }

  lemma SameSelectionBehindWildcard(files: seq<string>, input: seq<string>)
    requires input != []
    requires forall t :: t in input ==> HasMarker(t)
    ensures Select(files, input) == Select(files, [Wildcard] + input)
    ensures Select(files, input).found == FindAll(files)
    ensures Select(files, input).notFound == []
  {
    var wide := [Wildcard] + input;
    assert wide[0] == Wildcard;
    assert !NeedToApplyAll(input[0]) by { assert HasMarker(input[0]); }
    FilterIsPartition(input);
    WhereDropsAll(input, Unmarked);
    assert Filter(input).apply == [];
    ExceptUnchangedByWildcard(input);
  }

  lemma ExceptUnchangedByWildcard(input: seq<string>)
    ensures Filter([Wildcard] + input).except == Filter(input).except
  {
    FilterIsPartition(input);
    FilterIsPartition([Wildcard] + input);
    WhereAppend([Wildcard], input, HasMarker);
    assert !HasMarker(Wildcard) by { assert Wildcard == ['*']; }
    assert Where([Wildcard], HasMarker) == [];
    assert Where([Wildcard], HasMarker) + Where(input, HasMarker) == Where(input, HasMarker);
  }

  /**
   Requested names that were not discovered are only reported: the action
   fails for them only when nothing at all was found.
   */
  lemma MissingNamesNotFatal(action: Action, settings: Settings, env: Environment, input: seq<string>, confirmed: bool)
    requires input != [] && !NeedToApplyAll(input[0])
    ensures var r := Run(action, settings, env, input, confirmed);
            var apply := Filter(input).apply;
            var found := FindFixtures(env.files, apply);
            && r.notFound == Minus(apply, found)
            && (r.outcome == NoFilesFound <==> found == [])
  {
    RunIsDecide(action, settings, env, input, confirmed);
  }
}

=== FILE: config_resolver.dfy ===
/**
 `getFixturesConfig`: turning fixture names into the class names of the
 fixtures that exist. Whether a class exists (`class_exists`) is given as the
 set of class names the application can load.
 */
module ConfigResolver {
  import opened Seqs

  /** PHP's namespace separator. */
  const Separator: char := '\\'

  /** Every fixture class name ends with this. */
  const ClassSuffix: string := "Fixture"

  predicate IsNamespaced(name: string)
  {
    Separator in name
  }

  /**
   The class a fixture name stands for: a name that already holds a namespace
   separator only gets the suffix; a bare name is put under `namespace` first.
   */
  function ClassNameOf(namespace: string, name: string): (className: string)
    ensures IsNamespaced(className)
    ensures EndsWith(className, ClassSuffix)
    ensures |className| > |name|
  {
    var full := if IsNamespaced(name) then name + ClassSuffix else namespace + [Separator] + name + ClassSuffix;
    assert full[|full| - |ClassSuffix|..] == ClassSuffix;
    assert IsNamespaced(name) ==> exists i :: 0 <= i < |name| && name[i] == Separator && full[i] == Separator;
    assert !IsNamespaced(name) ==> full[|namespace|] == Separator;
    full
  }

  /**
   The `foreach` of `getFixturesConfig`: each name's class, kept when the
   class exists, in input order.
   */
  function FixturesConfig(namespace: string, classes: set<string>, names: seq<string>): (config: seq<string>)
    ensures |config| <= |names|
    ensures forall c :: c in config ==> c in classes
    ensures forall c :: c in config ==> exists n :: n in names && ClassNameOf(namespace, n) == c
    ensures forall n :: n in names && ClassNameOf(namespace, n) in classes ==> ClassNameOf(namespace, n) in config
  {
    if names == [] then []
    else
      var c := ClassNameOf(namespace, names[0]);
      var rest := FixturesConfig(namespace, classes, names[1..]);
      assert forall n :: n in names[1..] ==> n in names;
      assert forall n :: n in names ==> n == names[0] || n in names[1..];
      (if c in classes then [c] else []) + rest
  }

  /** The class names of `names`, in order, before the existence check. */
  function ClassNamesOf(namespace: string, names: seq<string>): seq<string>
  {
    Map(names, n => ClassNameOf(namespace, n))
  }

  /**
   The configuration is the names' classes with the missing ones deleted:
   order is kept, and a class named several times is kept as often.
   */
  lemma {:induction false} FixturesConfigIsWhere(namespace: string, classes: set<string>, names: seq<string>)
    ensures FixturesConfig(namespace, classes, names) == Where(ClassNamesOf(namespace, names), c => c in classes)
  {
    if names != [] {
      FixturesConfigIsWhere(namespace, classes, names[1..]);
      assert ClassNamesOf(namespace, names)[1..] == ClassNamesOf(namespace, names[1..]);
    }
  }

  /** The configuration keeps order: it is the mapped names with the missing classes deleted. */
  lemma ConfigIsSubsequence(namespace: string, classes: set<string>, names: seq<string>)
    ensures IsSubsequence(FixturesConfig(namespace, classes, names), ClassNamesOf(namespace, names))
  {
    FixturesConfigIsWhere(namespace, classes, names);
    WhereIsSubsequence(ClassNamesOf(namespace, names), c => c in classes);
  }

  /** Resolution distributes over concatenation: the globals' classes come first. */
  lemma {:induction false} ConfigOfConcat(namespace: string, classes: set<string>, globals: seq<string>, names: seq<string>)
    ensures FixturesConfig(namespace, classes, globals + names) ==
            FixturesConfig(namespace, classes, globals) + FixturesConfig(namespace, classes, names)
  {
    if globals != [] {
      assert (globals + names)[0] == globals[0];
      assert (globals + names)[1..] == globals[1..] + names;
      ConfigOfConcat(namespace, classes, globals[1..], names);
    } else {
      assert globals + names == names;
    }
  }

  /** Two names of the same kind (both bare, or both namespaced) never share a class. */
  lemma ClassNameOfInjective(namespace: string, a: string, b: string)
    requires IsNamespaced(a) == IsNamespaced(b)
    requires ClassNameOf(namespace, a) == ClassNameOf(namespace, b)
    ensures a == b
  {
    var ca, cb := ClassNameOf(namespace, a), ClassNameOf(namespace, b);
    if IsNamespaced(a) {
      assert a == ca[..|a|] && b == cb[..|b|];
    } else {
      var prefix := namespace + [Separator];
      assert a == ca[|prefix|..|ca| - |ClassSuffix|];
      assert b == cb[|prefix|..|cb| - |ClassSuffix|];
    }
  }

  /** A bare name and its namespaced spelling resolve to the same class. */
  lemma BareAndQualifiedCoincide(namespace: string, name: string)
    requires !IsNamespaced(name)
    ensures ClassNameOf(namespace, name) == ClassNameOf(namespace, namespace + [Separator] + name)
  {
    var qualified := namespace + [Separator] + name;
    assert qualified[|namespace|] == Separator;
  }
}

=== FILE: discovery.dfy ===
/**
 `findFixtures`: the fixtures that exist under the fixture path. The recursive
 directory scan is abstracted to the sequence of file basenames it returns, in
 the order it returns them; several entries may share a basename when they
 come from different sub-directories.
 */
module Discovery {
  import opened Seqs

  /** The file-name convention of a fixture class file. */
  const Suffix: string := "Fixture.php"

  /** `$fileName . 'Fixture.php'`: the one file name a requested fixture is looked up under. */
  function FileNameOf(name: string): (file: string)
    ensures IsFixtureFile(file)
    ensures |file| == |name| + |Suffix| && file[..|name|] == name
  {
    assert (name + Suffix)[|name|..] == Suffix;
    name + Suffix
  }

  predicate IsFixtureFile(file: string)
  {
    EndsWith(file, Suffix)
  }

  /**
   PHP's `basename($file, 'Fixture.php')` on a bare file name: the suffix is
   cut off only when something remains in front of it, so the file
   `Fixture.php` keeps its whole name.
   */
  function Basename(file: string): (name: string)
    ensures |name| <= |file|
    ensures name == file || FileNameOf(name) == file
  {
    if |Suffix| < |file| && IsFixtureFile(file) then file[..|file| - |Suffix|] else file
  }

  /**
   The `only` filter handed to the directory scan: with no requested names
   every `*Fixture.php` file matches; otherwise exactly the files
   `<Name>Fixture.php` for a requested `Name`.
   */
  predicate Selected(requested: seq<string>, file: string)
  {
    if requested == [] then IsFixtureFile(file)
    else exists name :: name in requested && FileNameOf(name) == file
  }

  /**
   Both modes select only fixture files, and in specific mode a selected file
   longer than the suffix has a requested name as its basename.
   */
  lemma SelectedFiles(requested: seq<string>, file: string)
    requires Selected(requested, file)
    ensures IsFixtureFile(file)
    ensures requested != [] && |Suffix| < |file| ==> Basename(file) in requested
  {
    if requested != [] {
      var name :| name in requested && FileNameOf(name) == file;
      if name != [] {
        BasenameOfFileName(name);
      }
    }
  }

  /** `findFixtures($fixtures)`: the basenames, suffix removed, of the selected files, in scan order. */
  function FindFixtures(files: seq<string>, requested: seq<string>): (found: seq<string>)
    ensures |found| <= |files|
  {
    Map(Where(files, f => Selected(requested, f)), Basename)
  }

  /** `findFixtures()`: the find-all mode, used for the wildcard. */
  function FindAll(files: seq<string>): seq<string>
  {
    FindFixtures(files, [])
  }

  /** Stripping the suffix inverts appending it, for every non-empty name. */
  lemma BasenameOfFileName(name: string)
    requires name != []
    ensures Basename(FileNameOf(name)) == name
  {
    assert FileNameOf(name)[..|name|] == name;
  }

  /** Distinct names are looked up under distinct file names. */
  lemma FileNameOfInjective(a: string, b: string)
    requires FileNameOf(a) == FileNameOf(b)
    ensures a == b
  {
    assert a == FileNameOf(a)[..|a|];
    assert b == FileNameOf(b)[..|b|];
  }

  /** Membership in `FindFixtures`: some selected file has that basename. */
  lemma FoundIff(files: seq<string>, requested: seq<string>, d: string)
    ensures d in FindFixtures(files, requested) <==>
            exists f :: f in files && Selected(requested, f) && Basename(f) == d
  {
    var kept := Where(files, f => Selected(requested, f));
    MapMember(kept, Basename, d);
  }

  /** Every discovered name comes from a `…Fixture.php` file in the scan, in either mode. */
  lemma FoundComeFromFixtureFiles(files: seq<string>, requested: seq<string>, d: string)
    requires d in FindFixtures(files, requested)
    ensures exists f :: f in files && IsFixtureFile(f) && Basename(f) == d
  {
    FoundIff(files, requested, d);
    var f :| f in files && Selected(requested, f) && Basename(f) == d;
    if requested != [] {
      var name :| name in requested && FileNameOf(name) == f;
      assert f[|f| - |Suffix|..] == Suffix;
    }
  }

  /**
   In specific mode every discovered name was requested, except that a
   requested empty name finds the file `Fixture.php` under its full name.
   */
  lemma SpecificFindsOnlyRequested(files: seq<string>, requested: seq<string>, d: string)
    requires requested != []
    requires d in FindFixtures(files, requested)
    ensures d in requested || (d == Suffix && "" in requested)
  {
    FoundIff(files, requested, d);
    var f :| f in files && Selected(requested, f) && Basename(f) == d;
    var name :| name in requested && FileNameOf(name) == f;
    if name != [] {
      BasenameOfFileName(name);
    } else {
      assert f == Suffix;
    }
  }

  /**
   In specific mode a non-empty name is found iff it was requested and its
   file is in the scan, or it is `Fixture.php` itself, found through a
   requested empty name.
   */
  lemma SpecificFoundIff(files: seq<string>, requested: seq<string>, name: string)
    requires requested != [] && name != []
    ensures name in FindFixtures(files, requested) <==>
            (name in requested && FileNameOf(name) in files) ||
            (name == Suffix && "" in requested && Suffix in files)
  {
    FoundIff(files, requested, name);
    if name in FindFixtures(files, requested) {
      var f :| f in files && Selected(requested, f) && Basename(f) == name;
      var n :| n in requested && FileNameOf(n) == f;
      if n != [] {
        BasenameOfFileName(n);
      } else {
        assert f == Suffix;
      }
    }
    if name in requested && FileNameOf(name) in files {
      BasenameOfFileName(name);
      assert Selected(requested, FileNameOf(name));
    }
    if name == Suffix && "" in requested && Suffix in files {
      assert FileNameOf("") == Suffix;
      assert Selected(requested, Suffix);
    }
  }

  /** Find-all mode finds every non-empty name whose fixture file is in the scan. */
  lemma FindAllFindsEveryFixtureFile(files: seq<string>, name: string)
    requires name != [] && FileNameOf(name) in files
    ensures name in FindAll(files)
  {
    BasenameOfFileName(name);
    assert FileNameOf(name)[|FileNameOf(name)| - |Suffix|..] == Suffix;
    FoundIff(files, [], name);
  }

  /** Two files with one basename (in two directories) yield the name twice. */
  lemma DuplicatesAreKept(name: string)
    requires name != []
    ensures FindFixtures([FileNameOf(name), FileNameOf(name)], [name]) == [name, name]
  {
    var file := FileNameOf(name);
    var files := [file, file];
    assert Selected([name], file) by { assert name in [name]; }
    WhereKeepsAll(files, f => Selected([name], f));
    BasenameOfFileName(name);
    assert Map(files, Basename)[0] == name && Map(files, Basename)[1] == name;
  }
}

=== FILE: fixture_controller.dfy ===
/**
 The `load` and `unload` actions of the fixture console controller as pure
 decision procedures. What the actions print is left out; what they decide
 is kept: the outcome, the names reported as not found, whether the operator
 was asked to confirm, the unload/load calls made on the resolved fixture
 classes, and how the action ends (a return value or an exception text).
 */
module FixtureController {
  import opened Seqs
  import opened NameFilter
  import opened Discovery
  import opened ConfigResolver
  import opened Messages

  /** The controller's two options. */
  datatype Settings = Settings(namespace: string, globalFixtures: seq<string>)

  /** The option defaults: fixtures live under `tests\unit\fixtures`; `yii\test\InitDb` is always used. */
  const DefaultSettings: Settings := Settings("tests\\unit\\fixtures", ["yii\\test\\InitDb"])

  /**
   What the actions observe of the world: the basenames found by the
   recursive scan of the fixture path, the loadable classes, and the fixture
   path itself (for the error text).
   */
  datatype Environment = Environment(files: seq<string>, classes: set<string>, fixturePath: string)

  datatype Action = Load | Unload

  /** A call into the fixture lifecycle, on the whole resolved class list. */
  datatype Call = UnloadFixtures(fixtures: seq<string>) | LoadFixtures(fixtures: seq<string>)

  datatype Outcome =
    | HelpShown              // no tokens given to `load`
    | NoFilesFound           // discovery found nothing: exception
    | NothingToDo            // everything found is excluded: notice
    | Declined               // the operator answered no
    | NoFixturesInNamespace  // no resolved class exists: exception
    | Applied(config: seq<string>)

  /** How an action ends: `return EXIT_CODE_NORMAL`, falling off the end, or a thrown exception. */
  datatype Exit = ExitNormal | NoReturnValue | Raised(message: string)

  datatype Report = Report(outcome: Outcome, notFound: seq<string>, prompted: bool, calls: seq<Call>, exit: Exit)

  /** The names chosen by the operator's tokens, before resolution. */
  datatype Selection = Selection(found: seq<string>, notFound: seq<string>, except: seq<string>, toProcess: seq<string>)

  /**
   The first half of both actions: filter the tokens, discover (find-all for
   a leading wildcard, otherwise the applied names), collect the requested
   names that were not found, and remove the excluded names.
   */
  function Select(files: seq<string>, input: seq<string>): (s: Selection)
    requires input != []
    ensures s.except == Filter(input).except
    ensures NeedToApplyAll(input[0]) ==> s.found == FindAll(files) && s.notFound == []
    ensures !NeedToApplyAll(input[0]) ==> s.found == FindFixtures(files, Filter(input).apply)
    ensures forall n :: n in s.notFound ==> n in Filter(input).apply && n !in s.found
    ensures !NeedToApplyAll(input[0]) ==>
              forall n :: n in Filter(input).apply ==> n in s.found || n in s.notFound
    ensures IsSubsequence(s.toProcess, s.found)
    ensures forall n :: n in s.toProcess <==> n in s.found && n !in s.except
    ensures forall n :: multiset(s.toProcess)[n] == if n in s.except then 0 else multiset(s.found)[n]
  {
    var filtered := Filter(input);
    var found := if NeedToApplyAll(input[0]) then FindAll(files) else FindFixtures(files, filtered.apply);
    var notFound := if NeedToApplyAll(input[0]) then [] else Minus(filtered.apply, found);
    MinusSpec(found, filtered.except);
    Selection(found, notFound, filtered.except, Minus(found, filtered.except))
  }

  /** The lifecycle calls of a confirmed action: load resets (unload, then load); unload only unloads. */
  function Calls(action: Action, config: seq<string>): (calls: seq<Call>)
    ensures calls != [] && calls[0] == UnloadFixtures(config)
    ensures forall c :: c in calls ==> c.fixtures == config
    ensures (exists c :: c in calls && c.LoadFixtures?) <==> action == Load
    ensures |calls| == if action == Load then 2 else 1
  {
    match action
    case Load => [UnloadFixtures(config), LoadFixtures(config)]
    case Unload => [UnloadFixtures(config)]
  }

  /** The text thrown when no class resolves; the unload text is kept as written, without its opening quote. */
  function NoConfigMessage(action: Action, namespace: string): string
  {
    match action
    case Load => LoadNoConfigMessage(namespace)
    case Unload => UnloadNoConfigMessageAsWritten(namespace)
  }

  /** The classes an action works on: the globals first, then the selected names. */
  function ResolvedConfig(settings: Settings, env: Environment, toProcess: seq<string>): (config: seq<string>)
    ensures config == FixturesConfig(settings.namespace, env.classes, settings.globalFixtures) +
                      FixturesConfig(settings.namespace, env.classes, toProcess)
    ensures forall c :: c in config ==> c in env.classes
  {
    ConfigOfConcat(settings.namespace, env.classes, settings.globalFixtures, toProcess);
    FixturesConfig(settings.namespace, env.classes, settings.globalFixtures + toProcess)
  }

  /**
   The decision sequence shared by both actions, for a non-empty token list.
   `confirmed` is the operator's answer, consulted only when the prompt is
   reached.
   */
  function Run(action: Action, settings: Settings, env: Environment, input: seq<string>, confirmed: bool): (r: Report)
    requires input != []
    ensures r.outcome != HelpShown
    ensures r.calls != [] ==> r.prompted && confirmed
    ensures r.calls != [] <==> r.outcome.Applied?
    ensures r.outcome.Applied? ==>
              r.outcome.config != [] && r.calls == Calls(action, r.outcome.config) &&
              forall c :: c in r.outcome.config ==> c in env.classes
    ensures r.exit.Raised? <==> r.outcome == NoFilesFound || r.outcome == NoFixturesInNamespace
    ensures r.outcome == NoFilesFound ==>
              Quoted(r.exit.message, Implode(", ", input)) && Quoted(r.exit.message, env.fixturePath)
    ensures r.outcome == NoFixturesInNamespace ==> r.exit == Raised(NoConfigMessage(action, settings.namespace))
    ensures r.outcome.Applied? ==> r.exit == if action == Load then ExitNormal else NoReturnValue
    ensures !r.outcome.Applied? && !r.exit.Raised? ==> r.exit == ExitNormal
  {
    Decide(action, settings, env, Select(env.files, input), confirmed, NoFilesFoundMessage(input, env.fixturePath))
  }

  /** The checks of `Run` on a given selection; `noFilesText` is the text thrown when nothing was found. */
  function Decide(action: Action, settings: Settings, env: Environment, s: Selection, confirmed: bool,
                  noFilesText: string): (r: Report)
    ensures r.notFound == s.notFound
    ensures r.outcome != HelpShown
    ensures r.calls != [] ==> r.prompted && confirmed
    ensures r.calls != [] <==> r.outcome.Applied?
    ensures r.outcome.Applied? ==>
              r.outcome.config != [] && r.calls == Calls(action, r.outcome.config) &&
              forall c :: c in r.outcome.config ==> c in env.classes
    ensures r.exit.Raised? <==> r.outcome == NoFilesFound || r.outcome == NoFixturesInNamespace
    ensures r.outcome.Applied? ==> r.outcome.config == ResolvedConfig(settings, env, s.toProcess)
    ensures r.outcome == NoFilesFound ==> r.exit == Raised(noFilesText)
    ensures r.outcome == NoFixturesInNamespace ==> r.exit == Raised(NoConfigMessage(action, settings.namespace))
    ensures r.outcome.Applied? ==> r.exit == if action == Load then ExitNormal else NoReturnValue
    ensures !r.outcome.Applied? && !r.exit.Raised? ==> r.exit == ExitNormal
  {
    if s.found == [] then
      Report(NoFilesFound, s.notFound, false, [], Raised(noFilesText))
    else if s.toProcess == [] then
      Report(NothingToDo, s.notFound, false, [], ExitNormal)
    else if !confirmed then
      Report(Declined, s.notFound, true, [], ExitNormal)
    else
      var config := ResolvedConfig(settings, env, s.toProcess);
      if config == [] then
        Report(NoFixturesInNamespace, s.notFound, true, [], Raised(NoConfigMessage(action, settings.namespace)))
      else
        Report(Applied(config), s.notFound, true, Calls(action, config),
               if action == Load then ExitNormal else NoReturnValue)
  }

  /** `actionLoad`: an empty token list only shows help; otherwise the shared decision sequence. */
  function ActionLoad(settings: Settings, env: Environment, input: seq<string>, confirmed: bool): (r: Report)
    ensures r.outcome == HelpShown <==> input == []
    ensures input == [] ==> r == Report(HelpShown, [], false, [], ExitNormal)
    ensures r.calls != [] ==> r.prompted && confirmed
    ensures r.outcome.Applied? ==>
              r.outcome.config != [] &&
              r.calls == [UnloadFixtures(r.outcome.config), LoadFixtures(r.outcome.config)]
    ensures r.exit != NoReturnValue
    ensures r.outcome == NoFixturesInNamespace ==> r.exit.Raised? && Quoted(r.exit.message, settings.namespace)
  {
    if input == [] then Report(HelpShown, [], false, [], ExitNormal)
    else Run(Load, settings, env, input, confirmed)
  }

  /** `actionUnload`: reads the first token without a guard, so the token list must not be empty. */
  function ActionUnload(settings: Settings, env: Environment, input: seq<string>, confirmed: bool): (r: Report)
    requires input != []
    ensures r.calls != [] ==> r.prompted && confirmed
    ensures r.outcome.Applied? ==> r.outcome.config != [] && r.calls == [UnloadFixtures(r.outcome.config)]
    ensures r.outcome.Applied? ==> r.exit == NoReturnValue
    ensures !r.outcome.Applied? && !r.exit.Raised? ==> r.exit == ExitNormal
    ensures r.outcome == NoFixturesInNamespace ==>
              r.exit == Raised(UnloadNoConfigMessageAsWritten(settings.namespace)) &&
              (Quote !in settings.namespace ==> !Quoted(r.exit.message, settings.namespace))
  {
    UnloadAppliedEnds(settings, env, input, confirmed);
    UnloadNoConfigEnd(settings, env, input, confirmed);
    Run(Unload, settings, env, input, confirmed)
  }

  /** The unload trace is the single unload call, and success returns no value. */
  lemma UnloadAppliedEnds(settings: Settings, env: Environment, input: seq<string>, confirmed: bool)
    requires input != []
    ensures var r := Run(Unload, settings, env, input, confirmed);
            r.outcome.Applied? ==>
              r.outcome.config != [] && r.calls == [UnloadFixtures(r.outcome.config)] && r.exit == NoReturnValue
  {
  }

  /** When no class resolves, unload throws the text as written, which leaves a plain namespace unquoted. */
  lemma UnloadNoConfigEnd(settings: Settings, env: Environment, input: seq<string>, confirmed: bool)
    requires input != []
    ensures var r := Run(Unload, settings, env, input, confirmed);
            r.outcome == NoFixturesInNamespace ==>
              r.exit == Raised(UnloadNoConfigMessageAsWritten(settings.namespace)) &&
              (Quote !in settings.namespace ==> !Quoted(r.exit.message, settings.namespace))
  {
    assert NoConfigMessage(Unload, settings.namespace) == UnloadNoConfigMessageAsWritten(settings.namespace);
    if Quote !in settings.namespace {
      UnloadMessageAsWrittenNotQuoted(settings.namespace);
    }
  }
}

=== FILE: messages.dfy ===
/**
 The texts of the two exceptions the fixture actions throw. The fixture path
 in the first one is the result of alias resolution, which is given.
 */
module Messages {
  const Quote: char := '"'

  /** The summed length of `pieces`. */
  function TotalLength(pieces: seq<string>): nat
  {
    if pieces == [] then 0 else |pieces[0]| + TotalLength(pieces[1..])
  }

  /**
   PHP's `implode(glue, pieces)`: the pieces in order, with one glue between
   neighbours and none at either end.
   */
  function Implode(glue: string, pieces: seq<string>): (joined: string)
    ensures pieces == [] ==> joined == ""
    ensures pieces != [] ==> |joined| == TotalLength(pieces) + |glue| * (|pieces| - 1)
    ensures pieces != [] ==> joined[..|pieces[0]|] == pieces[0]
    ensures |pieces| > 1 ==> joined[|pieces[0]|..|pieces[0]| + |glue|] == glue
  {
    if pieces == [] then ""
    else if |pieces| == 1 then pieces[0]
    else pieces[0] + glue + Implode(glue, pieces[1..])
  }

  /**
   Joining two non-empty lists is joining each and gluing the two results:
   every piece appears in order, with exactly one glue between neighbours.
   */
  lemma {:induction false} ImplodeAppend(glue: string, a: seq<string>, b: seq<string>)
    requires a != [] && b != []
    ensures Implode(glue, a + b) == Implode(glue, a) + glue + Implode(glue, b)
    decreases |a|
  {
    if |a| == 1 {
      assert a + b == [a[0]] + b;
      ImplodeCons(glue, a[0], b);
    } else {
      calc {
        Implode(glue, a + b);
      == { assert a + b == [a[0]] + (a[1..] + b); }
        Implode(glue, [a[0]] + (a[1..] + b));
      == { ImplodeCons(glue, a[0], a[1..] + b); }
        a[0] + glue + Implode(glue, a[1..] + b);
      == { ImplodeAppend(glue, a[1..], b); }
        a[0] + glue + (Implode(glue, a[1..]) + glue + Implode(glue, b));
      == { assert a == [a[0]] + a[1..]; ImplodeCons(glue, a[0], a[1..]); }
        Implode(glue, a) + glue + Implode(glue, b);
      }
    }
  }

  /** A piece in front of a non-empty list is joined to it by one glue. */
  lemma ImplodeCons(glue: string, p: string, rest: seq<string>)
    requires rest != []
    ensures Implode(glue, [p] + rest) == p + glue + Implode(glue, rest)
  {
    assert ([p] + rest)[1..] == rest;
  }

  /** The pieces of a list of three, joined, are exactly the three with the glue twice. */
  lemma ImplodeOfThree(glue: string, x: string, y: string, z: string)
    ensures Implode(glue, [x, y, z]) == x + glue + y + glue + z
  {
    ImplodeAppend(glue, [x], [y, z]);
    ImplodeAppend(glue, [y], [z]);
  }

  /**
   Thrown by both actions when discovery found nothing: the raw tokens, joined
   by commas, and the fixture path are both quoted.
   */
  function NoFilesFoundMessage(input: seq<string>, fixturePath: string): (message: string)
    ensures Quoted(message, Implode(", ", input))
    ensures Quoted(message, fixturePath)
  {
    var first := "No files were found by name: ";
    var second := ".\nCheck that files with these name exists, under fixtures path: \n";
    var names := Implode(", ", input);
    var message := first + [Quote] + names + [Quote] + second + [Quote] + fixturePath + [Quote] + ".";
    assert QuotedAt(message, names, |first|);
    assert QuotedAt(message, fixturePath, |first| + |names| + 2 + |second|);
    message
  }

  const NoConfigPrefix: string := "No fixtures were found in namespace: "

  /** Thrown by the load action when no fixture class exists: the namespace is quoted. */
  function LoadNoConfigMessage(namespace: string): (message: string)
    ensures Quoted(message, namespace)
  {
    var message := NoConfigPrefix + [Quote] + namespace + [Quote];
    assert QuotedAt(message, namespace, |NoConfigPrefix|);
    message
  }

  /** The unload action's text as written: the opening quote before the namespace is missing. */
  function UnloadNoConfigMessageAsWritten(namespace: string): (message: string)
    ensures |NoConfigPrefix| <= |message| && message[..|NoConfigPrefix|] == NoConfigPrefix
    ensures UnloadNoConfigMessage(namespace) ==
            message[..|NoConfigPrefix|] + [Quote] + message[|NoConfigPrefix|..]
  {
    NoConfigPrefix + namespace + [Quote] + "."
  }

  /** The unload action's text with the opening quote restored, as the load action has it. */
  function UnloadNoConfigMessage(namespace: string): (message: string)
    ensures Quoted(message, namespace)
  {
    var message := NoConfigPrefix + [Quote] + namespace + [Quote] + ".";
    assert QuotedAt(message, namespace, |NoConfigPrefix|);
    message
  }

  /** `inner` occurs in `message` between two quote characters. */
  predicate Quoted(message: string, inner: string)
  {
    exists i | 0 <= i < |message| :: QuotedAt(message, inner, i)
  }

  predicate QuotedAt(message: string, inner: string, i: int)
  {
    0 <= i && i + |inner| + 2 <= |message| &&
    message[i] == Quote && message[i + 1..i + 1 + |inner|] == inner &&
    message[i + 1 + |inner|] == Quote
  }

  /**
   The unload text as written does not quote the namespace: for any namespace
   without quotes of its own, the text holds a single quote character.
   */
  lemma UnloadMessageAsWrittenNotQuoted(namespace: string)
    requires Quote !in namespace
    ensures !Quoted(UnloadNoConfigMessageAsWritten(namespace), namespace)
  {
    var message := UnloadNoConfigMessageAsWritten(namespace);
    var n := |NoConfigPrefix|;
    PrefixHasNoQuote();
    forall j | 0 <= j < |message| && j != n + |namespace|
      ensures message[j] != Quote
    {
      if j < n {
        assert message[j] == NoConfigPrefix[j];
      } else if j < n + |namespace| {
        assert message[j] == namespace[j - n];
      } else {
        assert message[j] == '.';
      }
    }
    forall i | 0 <= i < |message|
      ensures !QuotedAt(message, namespace, i)
    {
      if i != n + |namespace| {
        assert message[i] != Quote;
      } else if i + 1 + |namespace| < |message| {
        assert message[i + 1 + |namespace|] != Quote;
      }
    }
  }

  lemma PrefixHasNoQuote()
    ensures Quote !in NoConfigPrefix
  {
    assert forall i :: 0 <= i < |NoConfigPrefix| ==> NoConfigPrefix[i] != Quote;
  }
}

=== FILE: name_filter.dfy ===
/**
 Splitting the raw command-line tokens of `yii fixture/load` and
 `yii fixture/unload` into the names to apply and the names to leave out, and
 recognising the wildcard token.
 */
module NameFilter {
  import opened Seqs

  /** The exclusion marker: a token containing it names a fixture NOT to process. */
  const Marker: char := '-'

  /** The token that, in first position, selects every fixture under the namespace. */
  const Wildcard: string := "*"

  datatype Filtered = Filtered(apply: seq<string>, except: seq<string>)

  predicate HasMarker(token: string)
  {
    Marker in token
  }

  predicate Unmarked(token: string)
  {
    !HasMarker(token)
  }

  predicate NotMarker(c: char)
  {
    c != Marker
  }

  /** `str_replace('-', '', token)`: every marker removed, all other characters kept in order. */
  function StripMarker(token: string): (name: string)
    ensures Unmarked(name)
    ensures Unmarked(token) ==> name == token
    ensures HasMarker(token) ==> |name| < |token|
    ensures IsSubsequence(name, token)
  {
    WhereIsSubsequence(token, NotMarker);
    if Unmarked(token) then
      WhereKeepsAll(token, NotMarker);
      Where(token, NotMarker)
    else
      WhereDrops(token, NotMarker, Marker);
      Where(token, NotMarker)
  }

  /**
   The `foreach` of `filterFixtures`: tokens are visited left to right; a token
   with a marker ANYWHERE goes to `except` with every marker removed, any other
   token goes to `apply` unchanged.
   */
  function Filter(tokens: seq<string>): (f: Filtered)
    ensures |f.apply| + |f.except| == |tokens|
    ensures forall a :: a in f.apply ==> a in tokens && Unmarked(a)
    ensures forall e :: e in f.except ==> Unmarked(e)
    ensures forall t :: t in tokens ==> if HasMarker(t) then StripMarker(t) in f.except else t in f.apply
  {
    if tokens == [] then Filtered([], [])
    else
      var f := Filter(tokens[..|tokens| - 1]);
      var t := tokens[|tokens| - 1];
      assert tokens == tokens[..|tokens| - 1] + [t];
      if HasMarker(t) then f.(except := f.except + [StripMarker(t)])
      else f.(apply := f.apply + [t])
  }

  /**
   Stripping keeps every other character with all of its occurrences, so the
   name is shorter than the token by exactly the token's number of markers.
   Together with `IsSubsequence(name, token)` this determines the name.
   */
  lemma StripMarkerCounts(token: string)
    ensures multiset(StripMarker(token)) == multiset(token)[Marker := 0]
    ensures |StripMarker(token)| == |token| - multiset(token)[Marker]
  {
    WhereMultiset(token, NotMarker);
    assert multiset(Where(token, NotMarker)) == multiset(token)[Marker := 0];
    DropMarkersLength(token);
  }

  /** Removing the markers shortens a token by its number of markers. */
  lemma {:induction false} DropMarkersLength(token: string)
    ensures |Where(token, NotMarker)| == |token| - multiset(token)[Marker]
  {
    if token != [] {
      DropMarkersLength(token[1..]);
      assert token == [token[0]] + token[1..];
      assert multiset(token) == multiset([token[0]]) + multiset(token[1..]);
    }
  }

  /**
   `needToApplyAll`: the first token alone decides wildcard mode. The wildcard
   token carries no marker, so it is filtered into `apply` like a name.
   */
  function NeedToApplyAll(first: string): (all: bool)
    ensures all <==> |first| == 1 && first[0] == '*'
    ensures all ==> Unmarked(first)
  {
    first == Wildcard
  }

  /**
   The split is a partition of the input: `apply` is exactly the unmarked
   tokens in input order, `except` is exactly the marked tokens, in input
   order, each with its markers stripped.
   */
  lemma {:induction false} FilterIsPartition(tokens: seq<string>)
    ensures Filter(tokens).apply == Where(tokens, Unmarked)
    ensures Filter(tokens).except == Map(Where(tokens, HasMarker), StripMarker)
    decreases |tokens|
  {
    if tokens != [] {
      var init, t := tokens[..|tokens| - 1], tokens[|tokens| - 1];
      assert tokens == init + [t];
      FilterIsPartition(init);
      FilterSnoc(init, t);
      PartitionSnoc(init, t);
    }
  }

  /** Filtering one more token appends it to exactly one of the two lists. */
  lemma FilterSnoc(init: seq<string>, t: string)
    ensures Filter(init + [t]) ==
            if HasMarker(t) then Filter(init).(except := Filter(init).except + [StripMarker(t)])
            else Filter(init).(apply := Filter(init).apply + [t])
  {
    assert (init + [t])[..|init|] == init;
  }

  lemma PartitionSnoc(init: seq<string>, t: string)
    ensures Where(init + [t], Unmarked) == Where(init, Unmarked) + (if HasMarker(t) then [] else [t])
    ensures Map(Where(init + [t], HasMarker), StripMarker) ==
            Map(Where(init, HasMarker), StripMarker) + (if HasMarker(t) then [StripMarker(t)] else [])
  {
    WhereSnoc(init, t, Unmarked);
    WhereSnoc(init, t, HasMarker);
    var tail := if HasMarker(t) then [t] else [];
    MapAppend(Where(init, HasMarker), tail, StripMarker);
    if HasMarker(t) {
      assert Map(tail, StripMarker) == [StripMarker(t)];
    } else {
      assert Map(tail, StripMarker) == [];
    }
  }

  /** Each kept list preserves the relative order of the input tokens. */
  lemma FilterKeepsOrder(tokens: seq<string>)
    ensures IsSubsequence(Filter(tokens).apply, tokens)
  {
    FilterIsPartition(tokens);
    WhereIsSubsequence(tokens, Unmarked);
  }

  /**
   The split is NOT disjoint: a name can be both applied and excluded, because
   the decision is made per token and the stripped name is not compared with
   the other list.
   */
  lemma ApplyAndExceptMayOverlap()
    ensures var f := Filter(["User", "-User"]); "User" in f.apply && "User" in f.except
  {
    var tokens := ["User", "-User"];
    assert tokens[0] == "User" && tokens[1] == "-User";
    StripsLeadingMarker("User");
    assert "-User" == [Marker] + "User";
  }

  /** A marker anywhere in the token excludes it, not only a leading one. */
  lemma MarkerInsideExcludes(left: string, right: string)
    requires Unmarked(left) && Unmarked(right)
    ensures Filter([left + [Marker] + right]) == Filtered([], [left + right])
  {
    var token := left + [Marker] + right;
    StripsInnerMarker(left, right);
    assert token[|left|] == Marker;
    var none: seq<string> := [];
    assert [token][..0] == none;
  }

  lemma StripsInnerMarker(left: string, right: string)
    requires Unmarked(left) && Unmarked(right)
    ensures StripMarker(left + [Marker] + right) == left + right
  {
    assert left + [Marker] + right == left + ([Marker] + right);
    WhereAppend(left, [Marker] + right, NotMarker);
    WhereKeepsAll(left, NotMarker);
    StripsLeadingMarker(right);
  }

  lemma StripsLeadingMarker(name: string)
    requires Unmarked(name)
    ensures StripMarker([Marker] + name) == name
  {
    assert ([Marker] + name)[1..] == name;
    WhereKeepsAll(name, NotMarker);
  }
}

=== FILE: scenarios.dfy ===
/**
 Worked runs of the fixture actions, for arbitrary fixture names, that pin
 down the documented command lines (`yii fixture "*" -User`,
 `yii fixture User UserProfile`, ...).
 */
module Scenarios {
  import opened Seqs
  import opened NameFilter
  import opened Discovery
  import opened ConfigResolver
  import opened Messages
  import opened FixtureController

  /** A plain fixture name as an operator types it. */
  predicate PlainName(name: string)
  {
    name != [] && Unmarked(name) && name != Wildcard
  }

  /** `yii fixture "*" -A` with fixtures A, B, C and no globals loads exactly B and C, in scan order. */
  lemma WildcardExceptOne(namespace: string, classes: set<string>, a: string, b: string, c: string)
    requires PlainName(a) && PlainName(b) && PlainName(c)
    requires a != b && a != c
    requires ClassNameOf(namespace, b) in classes && ClassNameOf(namespace, c) in classes
    ensures var env := Environment([FileNameOf(a), FileNameOf(b), FileNameOf(c)], classes, "");
            var config := [ClassNameOf(namespace, b), ClassNameOf(namespace, c)];
            ActionLoad(Settings(namespace, []), env, [Wildcard, [Marker] + a], true) ==
            Report(Applied(config), [], true, [UnloadFixtures(config), LoadFixtures(config)], ExitNormal)
  {
    var settings := Settings(namespace, []);
    var env := Environment([FileNameOf(a), FileNameOf(b), FileNameOf(c)], classes, "");
    var input := [Wildcard, [Marker] + a];
    var s := Selection([a, b, c], [], [a], [b, c]);
    WildcardExceptOneSelects(a, b, c);
    assert ActionLoad(settings, env, input, true) ==
           Decide(Load, settings, env, s, true, NoFilesFoundMessage(input, env.fixturePath));
    assert [] + [b, c] == [b, c];
    ConfigOfTwo(namespace, classes, b, c);
  }

  lemma WildcardExceptOneSelects(a: string, b: string, c: string)
    requires PlainName(a) && PlainName(b) && PlainName(c)
    requires a != b && a != c
    ensures Select([FileNameOf(a), FileNameOf(b), FileNameOf(c)], [Wildcard, [Marker] + a]) ==
            Selection([a, b, c], [], [a], [b, c])
  {
    var input := [Wildcard, [Marker] + a];
    assert input[0] == Wildcard;
    FilterWildcardExcept(a);
    FindAllOfThree(a, b, c);
    MinusFirstOfThree(a, b, c);
  }

  lemma MinusFirstOfThree(a: string, b: string, c: string)
    requires a != b && a != c
    ensures Minus([a, b, c], [a]) == [b, c]
  {
    MinusStep([a, b, c], [a]);
    assert [a, b, c][1..] == [b, c];
    MinusStep([b, c], [a]);
    assert [b, c][1..] == [c];
    MinusStep([c], [a]);
    assert [c][1..] == [];
  }

  lemma FilterWildcardExcept(a: string)
    requires Unmarked(a)
    ensures Filter([Wildcard, [Marker] + a]).except == [a]
  {
    var excluded := [Marker] + a;
    FilterOfWildcard();
    assert HasMarker(excluded) by { assert excluded[0] == Marker; }
    FilterSnoc([Wildcard], excluded);
    assert [Wildcard] + [excluded] == [Wildcard, excluded];
    StripsLeadingMarker(a);
  }

  lemma FilterOfWildcard()
    ensures Filter([Wildcard]) == Filtered([Wildcard], [])
  {
    var none: seq<string> := [];
    assert Unmarked(Wildcard) by { assert Wildcard == ['*']; }
    FilterSnoc(none, Wildcard);
    assert none + [Wildcard] == [Wildcard];
  }

  /** `yii fixture User Missing` when only User exists: Missing is reported and User is still loaded. */
  lemma MissingNameReported(namespace: string, classes: set<string>, user: string, missing: string)
    requires PlainName(user) && PlainName(missing) && user != missing
    requires ClassNameOf(namespace, user) in classes
    ensures var env := Environment([FileNameOf(user)], classes, "");
            var config := [ClassNameOf(namespace, user)];
            ActionLoad(Settings(namespace, []), env, [user, missing], true) ==
            Report(Applied(config), [missing], true, [UnloadFixtures(config), LoadFixtures(config)], ExitNormal)
  {
    var settings := Settings(namespace, []);
    var env := Environment([FileNameOf(user)], classes, "");
    var input := [user, missing];
    var s := Selection([user], [missing], [], [user]);
    MissingNameSelects(user, missing);
    assert ActionLoad(settings, env, input, true) ==
           Decide(Load, settings, env, s, true, NoFilesFoundMessage(input, env.fixturePath));
    assert [] + [user] == [user];
    assert FixturesConfig(namespace, classes, [user]) == [ClassNameOf(namespace, user)] by {
      assert [user][1..] == [];
    }
  }

  lemma MissingNameSelects(user: string, missing: string)
    requires PlainName(user) && PlainName(missing) && user != missing
    ensures Select([FileNameOf(user)], [user, missing]) == Selection([user], [missing], [], [user])
  {
    var input := [user, missing];
    assert input[0] == user;
    FilterOfTwo(user, missing);
    assert Filter(input) == Filtered(input, []);
    FindSingleFile(user, input);
    assert Minus(input, [user]) == [missing] by {
      MinusStep(input, [user]);
      assert input[1..] == [missing];
      MinusStep([missing], [user]);
      assert [missing][1..] == [];
    }
    assert Minus([user], []) == [user];
  }

  /** A single fixture file whose name was requested is found under that name. */
  lemma FindSingleFile(name: string, requested: seq<string>)
    requires name != [] && name in requested
    ensures FindFixtures([FileNameOf(name)], requested) == [name]
  {
    var files := [FileNameOf(name)];
    assert Selected(requested, FileNameOf(name));
    assert Where(files, f => Selected(requested, f)) == files by {
      assert files[1..] == [];
    }
    BasenameOfFileName(name);
  }

  /** With global fixture G and request A the load trace is unload [G, A] then load [G, A], in the same order. */
  lemma GlobalLoadedFirst(namespace: string, classes: set<string>, globalName: string, a: string)
    requires PlainName(a)
    requires ClassNameOf(namespace, globalName) in classes && ClassNameOf(namespace, a) in classes
    ensures var env := Environment([FileNameOf(a)], classes, "");
            var config := [ClassNameOf(namespace, globalName), ClassNameOf(namespace, a)];
            ActionLoad(Settings(namespace, [globalName]), env, [a], true).calls ==
            [UnloadFixtures(config), LoadFixtures(config)]
  {
    var input := [a];
    assert input[0] == a;
    assert Filter(input) == Filtered([a], []) by { assert input[..0] == []; }
    FindSingleFile(a, input);
    assert Minus([a], []) == [a];
    assert [globalName] + [a] == [globalName, a];
    ConfigOfTwo(namespace, classes, globalName, a);
  }

  /** `yii fixture A -A`: the found name is excluded again, so nothing is done and nothing is asked. */
  lemma RequestedAndExcluded(settings: Settings, classes: set<string>, a: string, confirmed: bool)
    requires PlainName(a)
    ensures var env := Environment([FileNameOf(a)], classes, "");
            ActionLoad(settings, env, [a, [Marker] + a], confirmed) == Report(NothingToDo, [], false, [], ExitNormal)
  {
    var input := [a, [Marker] + a];
    assert input[0] == a;
    FilterOfTwo(a, [Marker] + a);
    assert HasMarker([Marker] + a) by { assert ([Marker] + a)[0] == Marker; }
    StripsLeadingMarker(a);
    assert Filter(input) == Filtered([a], [a]);
    FindSingleFile(a, [a]);
    assert Minus([a], [a]) == [] by { MinusStep([a], [a]); assert [a][1..] == []; }
  }

  /** The default global fixture is already namespaced and resolves to `yii\test\InitDbFixture`. */
  lemma DefaultGlobalResolves()
    ensures ClassNameOf(DefaultSettings.namespace, DefaultSettings.globalFixtures[0]) == "yii\\test\\InitDbFixture"
  {
    var g := "yii\\test\\InitDb";
    assert DefaultSettings.globalFixtures[0] == g;
    assert IsNamespaced(g) by { assert g[3] == Separator; }
  }

  lemma FilterOfTwo(x: string, y: string)
    ensures Filter([x, y]) ==
            (if HasMarker(y) then Filter([x]).(except := Filter([x]).except + [StripMarker(y)])
             else Filter([x]).(apply := Filter([x]).apply + [y]))
    ensures Filter([x]) == (if HasMarker(x) then Filtered([], [StripMarker(x)]) else Filtered([x], []))
  {
    var none: seq<string> := [];
    FilterSnoc(none, x);
    assert none + [x] == [x];
    FilterSnoc([x], y);
    assert [x] + [y] == [x, y];
  }

  lemma FindAllOfThree(a: string, b: string, c: string)
    requires a != [] && b != [] && c != []
    ensures FindAll([FileNameOf(a), FileNameOf(b), FileNameOf(c)]) == [a, b, c]
  {
    var files := [FileNameOf(a), FileNameOf(b), FileNameOf(c)];
    forall f | f in files ensures IsFixtureFile(f) {
      assert f[|f| - |Suffix|..] == Suffix;
    }
    WhereKeepsAll(files, f => Selected([], f));
    BasenameOfFileName(a);
    BasenameOfFileName(b);
    BasenameOfFileName(c);
  }

  lemma ConfigOfTwo(namespace: string, classes: set<string>, x: string, y: string)
    requires ClassNameOf(namespace, x) in classes && ClassNameOf(namespace, y) in classes
    ensures FixturesConfig(namespace, classes, [x, y]) == [ClassNameOf(namespace, x), ClassNameOf(namespace, y)]
  {
    assert [x, y][1..] == [y];
    assert [y][1..] == [];
  }
}

=== FILE: seqs.dfy ===
/**
 Generic sequence operations the fixture controller is built from: filtering
 in order (PHP's `foreach` that appends the elements it keeps), mapping,
 `array_diff`, suffix tests and an order-preserving subsequence relation.
 */
module Seqs {

  /** The elements of `s` that satisfy `p`, in their original order. */
  function Where<T(!new)>(s: seq<T>, p: T -> bool): (r: seq<T>)
    ensures |r| <= |s|
    ensures forall x :: x in r <==> x in s && p(x)
  {
    if s == [] then []
    else (if p(s[0]) then [s[0]] else []) + Where(s[1..], p)
  }

  /** Nothing is dropped when every element passes. */
  lemma {:induction false} WhereKeepsAll<T(!new)>(s: seq<T>, p: T -> bool)
    requires forall x :: x in s ==> p(x)
    ensures Where(s, p) == s
  {
    if s != [] {
      WhereKeepsAll(s[1..], p);
    }
  }

  /** Everything is dropped when every element fails. */
  lemma {:induction false} WhereDropsAll<T(!new)>(s: seq<T>, p: T -> bool)
    requires forall x :: x in s ==> !p(x)
    ensures Where(s, p) == []
  {
    if s != [] {
      WhereDropsAll(s[1..], p);
    }
  }

  /** Something is dropped when some element fails. */
  lemma {:induction false} WhereDrops<T(!new)>(s: seq<T>, p: T -> bool, x: T)
    requires x in s && !p(x)
    ensures |Where(s, p)| < |s|
  {
    if s[0] != x {
      WhereDrops(s[1..], p, x);
    }
  }

  /** Filtering one more element appends it when it passes. */
  lemma WhereSnoc<T(!new)>(s: seq<T>, x: T, p: T -> bool)
    ensures Where(s + [x], p) == Where(s, p) + (if p(x) then [x] else [])
  {
    WhereAppend(s, [x], p);
    assert [x][1..] == [];
  }

  /** `f` applied to every element of `s`, in order. */
  function Map<T, U>(s: seq<T>, f: T -> U): (r: seq<U>)
    ensures |r| == |s|
    ensures forall i :: 0 <= i < |s| ==> r[i] == f(s[i])
  {
    if s == [] then [] else [f(s[0])] + Map(s[1..], f)
  }

  /** Membership in `Map`: some element of `s` is mapped to `y`. */
  lemma MapMember<T, U>(s: seq<T>, f: T -> U, y: U)
    ensures y in Map(s, f) <==> exists x :: x in s && f(x) == y
  {
    if y in Map(s, f) {
      var i :| 0 <= i < |s| && Map(s, f)[i] == y;
      assert s[i] in s;
    }
    if exists x :: x in s && f(x) == y {
      var x :| x in s && f(x) == y;
      var i :| 0 <= i < |s| && s[i] == x;
      assert Map(s, f)[i] == y;
    }
  }

  /** PHP's `array_diff(a, b)`: the entries of `a` that occur nowhere in `b`, in order. */
  function Minus<T(==,!new)>(a: seq<T>, b: seq<T>): (r: seq<T>)
    ensures |r| <= |a|
    ensures forall x :: x in r <==> x in a && x !in b
  {
    Where(a, x => x !in b)
  }

  /** One step of `array_diff`: the head is kept iff it does not occur in `b`. */
  lemma MinusStep<T(!new)>(a: seq<T>, b: seq<T>)
    requires a != []
    ensures Minus(a, b) == (if a[0] in b then [] else [a[0]]) + Minus(a[1..], b)
  {
  }

  /** `s` ends with `suffix`. */
  predicate EndsWith<T(==)>(s: seq<T>, suffix: seq<T>)
  {
    |suffix| <= |s| && s[|s| - |suffix|..] == suffix
  }

  /** `a` can be obtained from `b` by deleting elements (order is kept). */
  predicate IsSubsequence<T(==)>(a: seq<T>, b: seq<T>)
    decreases |b|
  {
    if a == [] then true
    else if b == [] then false
    else (a[0] == b[0] && IsSubsequence(a[1..], b[1..])) || IsSubsequence(a, b[1..])
  }

  lemma {:induction false} WhereAppend<T(!new)>(a: seq<T>, b: seq<T>, p: T -> bool)
    ensures Where(a + b, p) == Where(a, p) + Where(b, p)
  {
    if a == [] {
      assert a + b == b;
    } else {
      assert (a + b)[1..] == a[1..] + b;
      WhereAppend(a[1..], b, p);
    }
  }

  lemma {:induction false} MapAppend<T, U>(a: seq<T>, b: seq<T>, f: T -> U)
    ensures Map(a + b, f) == Map(a, f) + Map(b, f)
  {
    if a == [] {
      assert a + b == b;
    } else {
      assert (a + b)[1..] == a[1..] + b;
      MapAppend(a[1..], b, f);
    }
  }

  /** What `Where` keeps is a subsequence of its input. */
  lemma {:induction false} WhereIsSubsequence<T(!new)>(s: seq<T>, p: T -> bool)
    ensures IsSubsequence(Where(s, p), s)
  {
    if s != [] {
      WhereIsSubsequence(s[1..], p);
      if p(s[0]) {
        assert Where(s, p)[1..] == Where(s[1..], p);
      } else {
        assert Where(s, p) == Where(s[1..], p);
      }
    }
  }

  /** `Where` keeps every occurrence of a passing element and none of a failing one. */
  lemma {:induction false} WhereMultiset<T(!new)>(s: seq<T>, p: T -> bool)
    ensures forall x :: multiset(Where(s, p))[x] == if p(x) then multiset(s)[x] else 0
  {
    if s != [] {
      WhereMultiset(s[1..], p);
      assert s == [s[0]] + s[1..];
      assert multiset(s) == multiset([s[0]]) + multiset(s[1..]);
      var head := if p(s[0]) then [s[0]] else [];
      assert multiset(Where(s, p)) == multiset(head) + multiset(Where(s[1..], p));
    }
  }

  /**
   `array_diff(a, b)` keeps order and drops exactly the entries found in `b`:
   every other entry keeps all of its occurrences.
   */
  lemma MinusSpec<T(!new)>(a: seq<T>, b: seq<T>)
    ensures IsSubsequence(Minus(a, b), a)
    ensures forall x :: x in Minus(a, b) <==> x in a && x !in b
    ensures forall x :: multiset(Minus(a, b))[x] == if x in b then 0 else multiset(a)[x]
  {
    WhereIsSubsequence(a, x => x !in b);
    WhereMultiset(a, x => x !in b);
  }
}
